=== FILE: README.md ===
# Project document store — a Dafny model

This project models the core of a small Flask application that keeps
construction-project documents on disk. A project is created from a display
name: the name is turned into an identifier (spaces to underscores, then
lower case), a directory of that name is made below the storage root
`BASE_DIR`, sixteen fixed document-category folders are made inside it, and
a `project_info.json` record stores the identifier, the display name and the
folder list. Files are uploaded into a folder of a project after a chain of
checks (a file part, a non-empty name, an allowed extension, an existing
folder). The project page lists each declared folder's entries, and two
download routes send a stored document or the project record.

The storage tree is an immutable value: a map from paths (sequences of
names below `BASE_DIR`, `[]` being `BASE_DIR` itself) to nodes, each a
directory or a file holding either uploaded bytes or the metadata record.
Every route becomes a pure function from the tree (and the request) to a
response, and the two routes that write return the new tree as well.
Operating-system calls that raise in the original (`os.makedirs` on an
existing path, writing onto a directory, listing a file) are modelled as
failures: `None` for project creation, a `ServerError` response for the
routes. Werkzeug's `secure_filename` is not modelled: the upload takes it
as a function parameter.

Modules, in dependency order:

- `Wrappers` (`wrappers.dfy`): the `Option` type.
- `Ascii` (`ascii.dfy`): `str.lower()` and one-character `str.replace`.
- `Extensions` (`extensions.dfy`): `ALLOWED_EXTENSIONS`, `rsplit('.', 1)`
  and `allowed_file`.
- `FileSystem` (`filesystem.dfy`): the tree, well-formedness (`BASE_DIR`,
  when present, is a directory, and every other entry hangs below a
  directory), `os.path.join`, `os.listdir`, `os.makedirs`
  and opening a file for writing.
- `Projects` (`projects.dfy`): the identifier, the sixteen folders and
  `create_project`.
- `Views` (`views.dfy`): `list_projects`, the GET branch of `show_project`,
  `download_document` and `download_project`.
- `Uploads` (`uploads.dfy`): the POST branch of `show_project`.
- `Scenarios` (`scenarios.dfy`): the "Road Widening Phase 1" example.

Where the code does less or other than its own names, comments and
messages suggest, the model follows the code:

- A file whose extension is not allowed gets no notice, although every
  other rejection except a missing `folder_type` (a 400 error) flashes
  one. The handler skips the upload and renders
  the project page as a GET would (app.py:79, 90).
- The flash "Invalid folder type selected." (app.py:83) suggests a check
  against the sixteen categories, but the check is existence of the joined
  path. Any existing directory the joined path names accepts uploads; in
  the source that includes directories outside the project (see Left out). An empty
  `folder_type` selects the project directory itself. A `folder_type`
  naming a file passes the check, and then the save raises.
- `create_project` makes the subfolders with `os.makedirs` (no
  `exist_ok`), so it raises rather than merges when a path is in the way.
  In a well-formed tree this never happens for a reason of the tree's shape
  (`Projects.CreateOutcome`).
- Well-formedness asks `BASE_DIR`, when present, to be a directory. The
  application starts even when a regular file named `Projects` is in its
  place, and then `create_project` raises at `os.makedirs` for every name
  whose project path is not already there (`Projects.CreateBelowFileFails`).
- The name `list_projects` (app.py:58) suggests project directories, but it
  lists every entry of `BASE_DIR`, files included (app.py:60).
- The comment "unique identifier" (app.py:21) is not borne out: names that
  differ only in case or in spaces against underscores give the same
  identifier, and the second creation silently does nothing
  (`Projects.CreateCollision`).
- An empty project name gives the identifier `""`, and joining it leaves
  the project path at `BASE_DIR` itself. When `BASE_DIR` is absent, creation
  then makes it and puts the sixteen folders and `project_info.json`
  directly inside it; when it exists, creation does nothing. This is why
  `Views.CreateThenList` asks for a non-empty identifier: the empty one adds
  the folders, not a project, to the listing.

## Model

| member | source | states |
|---|---|---|
| Extensions.AllowedFile | app.py:16-17 | `allowed_file`: the dot test and the lookup of the lowered text after the last dot. Its meaning is pinned by `Extensions.AllowedFileIff` and the examples below. |
| Extensions.LastIndexOf | app.py:17 | The index found holds the separator and no later position does; there is no index exactly when the separator does not occur. |
| Extensions.RSplitOnce | app.py:17 | `rsplit(sep, 1)` gives the whole string when `sep` is absent; otherwise it gives two parts that rebuild the string around `sep`, and the second part holds no `sep`. |
| Extensions.AllowedFileIff | app.py:9-17 | A name is accepted exactly when it has a dot and the text after its last dot, lower-cased, is one of the eleven allowed extensions (both directions). |
| Extensions.UpperCaseExtensionAccepted | app.py:17 | Case is ignored: `A.PDF` is accepted. |
| Extensions.InnerExtensionIgnored | app.py:17 | Only the final segment counts: `x.pdf.exe` is rejected. |
| Extensions.ExecutableRejected | app.py:17 | `malware.exe` is rejected. |
| Extensions.PlainPdfAccepted | app.py:17 | `plan.pdf` is accepted. |
| Extensions.NameWithoutDotRejected | app.py:17 | A name with no dot (`pdf`) is rejected. |
| Extensions.BareExtensionAccepted | app.py:17 | A name that is only a dot and an extension (`.pdf`) is accepted. |
| Ascii.LowerChar | app.py:22 | Lowering yields no upper-case letter. It maps each upper-case letter to the letter at the same place in the lower-case alphabet, and keeps every other character. |
| Ascii.Lower | app.py:22 | `str.lower()`: same length, no upper-case letter left, every upper-case letter replaced by the letter at the same place in the lower-case alphabet, and every other character kept in place. |
| Ascii.Replace | app.py:22 | `str.replace` of one character by another: same length, every occurrence replaced, every other character kept in place, and the replaced character gone when the two differ. |
| Projects.DeriveId | app.py:22 | The identifier has the name's length; its characters are fixed by `Projects.DeriveIdChars`. |
| Projects.DeriveIdChars | app.py:22 | Position by position, a space becomes `_`, an upper-case letter becomes its lower-case letter, and every other character is kept. |
| Projects.DeriveIdNormal | app.py:22 | The identifier has no space and no upper-case letter, has the name's length, and deriving again from it changes nothing. |
| Projects.DeriveIdFixedPoints | app.py:22 | The strings that deriving leaves unchanged are exactly those with no space and no upper-case letter. |
| Scenarios.RoadWideningId | app.py:22 | "Road Widening Phase 1" becomes `road_widening_phase_1`. |
| FileSystem.Join | app.py:25 | `os.path.join` of one name: an empty name leaves the path unchanged, any other is appended as the last component. |
| FileSystem.Children | app.py:97 | A name is listed in a directory exactly when the path extended by that name exists. |
| FileSystem.MakeDirs | app.py:28 | On success the path is a directory, every existing entry is kept, and every new entry is an ancestor of the path (or the path itself) and a directory. |
| FileSystem.MakeDirsInTree | app.py:28 | In a well-formed tree, `makedirs` succeeds exactly when the path is absent and no ancestor is a file, and the tree stays well formed. |
| FileSystem.WriteFile | app.py:43-44 | Opening for writing succeeds exactly when the path is not a directory and its parent is one. It then sets that one entry and keeps the tree well formed. |
| Projects.SubfoldersDistinct | app.py:31-33 | The sixteen folder names are pairwise distinct and non-empty, and none is `project_info.json`. So the folder loop never meets an existing path. |
| Projects.MakeSubfolders | app.py:34-35 | The folder loop, one `os.makedirs` per name, stopping at the first that raises. Pinned by `Projects.MakeSubfoldersFresh`. |
| Projects.MakeSubfoldersFresh | app.py:34-35 | Making fresh, distinct folders below a directory adds exactly those folders as directories, changes nothing else, and keeps the tree well formed. |
| Projects.ProjectPath | app.py:25 | `os.path.join(BASE_DIR, project_id)`: the one-name path of the identifier, or `BASE_DIR` itself for the empty identifier. |
| Projects.CreateProject | app.py:20-44 | `create_project`: `None` when a call raises. Pinned by `Projects.CreateOutcome`, `Projects.CreateFresh`, `Projects.CreateCollision` and `Projects.CreateIdempotent`. |
| Projects.CreateBelowFileFails | app.py:25-28 | When `BASE_DIR` is a regular file, creating a project whose path is absent fails, because `os.makedirs` raises. |
| Projects.CreateFresh | app.py:27-44 | In a well-formed tree (`BASE_DIR`, when present, a directory; every other entry below a directory) and for an absent project path, creation succeeds. It adds exactly `BASE_DIR` (if missing), the project directory, the sixteen folders and the record `(id, original name, folder list)`. Every earlier entry is unchanged. |
| Projects.CreateOutcome | app.py:20-44 | In a well-formed tree (`BASE_DIR`, when present, a directory; every other entry below a directory) creation never fails for a reason of the tree's shape (the operating-system failures listed under Left out are not modelled). It leaves the tree well formed, changes nothing when the project path exists, and lays out exactly the new project otherwise. |
| Projects.CreateCollision | app.py:22-27 | A second creation with any name that normalises to the same identifier returns the result of the first, unchanged. |
| Projects.CreateIdempotent | app.py:27 | Creating twice with the same name equals creating once. |
| Views.ListProjects | app.py:57-64 | `list_projects`. Pinned by `Views.ListProjectsOutcome` and `Views.CreateThenList`. |
| Views.ListProjectsOutcome | app.py:57-64 | The listing redirects home with "does not exist" exactly when `BASE_DIR` is missing. In a well-formed tree it otherwise lists exactly the names directly below `BASE_DIR`, files included. A `BASE_DIR` that is a file raises. |
| Views.ShowProject | app.py:90-101 | The GET branch of `show_project`. Pinned by `Views.ShowProjectOutcome`, `Views.CollectDocumentFiles` and `Views.CreateThenShow`. |
| Views.InfoPath | app.py:116 | `os.path.join(BASE_DIR, project_id, "project_info.json")`: the record's path inside the project directory. |
| Views.DocumentFiles | app.py:93-97 | The reference definition of `document_files`: no result when a declared folder exists but is not a directory (listing it raises); otherwise each declared folder that exists, mapped to the names directly inside it. |
| Views.CollectDocumentFiles | app.py:93-97 | The folder-by-folder loop builds the same map as the reference definition `Views.DocumentFiles`: no result when a declared folder exists but is not a directory; otherwise each existing declared folder mapped to its listing. |
| Views.ShowProjectOutcome | app.py:90-101 | The page is shown exactly when the project directory and a metadata record exist and the declared folders that exist are directories. Its map then has a key for exactly the declared folders that exist as directories, each mapped to its entries. A missing directory or record redirects to the listing with "not found". |
| Views.CreateThenShow | app.py:90-98 | After a fresh creation, the project page shows the stored record and the sixteen categories, each with no files. |
| Views.CreateThenList | app.py:57-61 | In a well-formed tree, after a creation with a non-empty identifier the listing is the earlier listing plus that identifier. An identifier already present leaves the listing unchanged. |
| Views.DownloadProject | app.py:114-121 | `download_project`. Pinned by `Views.DownloadProjectOutcome` and `Views.CreateThenDownloadProject`. |
| Views.DownloadProjectOutcome | app.py:114-121 | Downloading the project data sends exactly the file stored as the record. A missing record gives a "not found" redirect to the listing, and a directory in its place raises. |
| Views.CreateThenDownloadProject | app.py:114-118 | After a fresh creation, downloading the project data sends the record holding the identifier, the original name and the sixteen folders. |
| Views.DownloadDocument | app.py:104-111 | `download_document`. Pinned by `Views.DownloadDocumentOutcome` and `Uploads.UploadThenDownload`. |
| Views.DownloadDocumentOutcome | app.py:104-111 | A download sends exactly the file stored at the joined path. A missing path gives a "not found" redirect to the project page, never an error; a directory at the path raises. |
| Uploads.UploadTarget | app.py:85-86 | Where an accepted upload is written: the sanitised file name joined below the selected folder of the project. |
| Uploads.Upload | app.py:71-89 | The POST branch of `show_project`. Pinned by `Uploads.UploadRejectionOrder`, `Uploads.UploadRejectedWritesNothing` and `Uploads.UploadAcceptedWritesTarget`. |
| Uploads.UploadRejectionOrder | app.py:71-84 | The checks apply in order: no file part, then empty name, then disallowed extension (falls through to the project view), then missing `folder_type` (bad request), then a missing folder. The first failing check decides the response, and the tree is unchanged. |
| Uploads.UploadRejectedWritesNothing | app.py:71-89 | An upload that is not accepted leaves the tree unchanged and does not report success. |
| Uploads.UploadAcceptedWritesTarget | app.py:81-89 | An accepted upload sets exactly the entry `project/folder_type/secure_filename(name)` to the uploaded bytes, overwriting any file there. No other entry changes, the tree stays well formed, and the success redirect names the sanitised file and the folder. |
| Uploads.UploadThenDownload | app.py:104-108 | After an accepted upload, downloading the same folder and sanitised name sends back the uploaded bytes. |
| Uploads.ExecutableUploadIgnored | app.py:79-90 | Uploading `malware.exe` writes nothing and renders the project view. |
| Uploads.UploadIntoUncategorisedFolder | app.py:81-87 | An existing directory `Misc`, which is not one of the sixteen categories, accepts an upload. |

## Left out

- Flask routing, `request`, `flash`, `redirect`, `url_for` and
  `render_template` are HTTP plumbing. Responses are a datatype naming the
  page redirected to and the notice flashed.
- The Jinja templates, writing them at import time, the `/` route and
  `app.run`: presentation and startup I/O.
- `create_project_route`: it only calls `create_project`, flashes and
  redirects.
- `send_file` streaming: a download yields the stored content, not bytes
  on the wire.
- `secure_filename`: a foreign library function, taken as a parameter with
  no assumption on its result. An empty result is modelled as a failed save,
  because joining it leaves a trailing separator.
- `json.dump` and `json.load`: the record is a datatype, not text. A
  `project_info.json` that holds uploaded bytes is treated as unparsable,
  even if those bytes happen to be valid JSON. Records missing a key are
  not modelled.
- `os.path.join` corner cases: names containing `/`, names equal to `.`
  or `..`, absolute paths, and a trailing separator after a file name. The
  model joins one name per component, and an empty name adds nothing.
- Project names containing `/`: in the source, a name such as "Phase 1/2"
  gives the identifier `phase_1/2`, and `os.makedirs` makes the nested
  directories `phase_1` and `phase_1/2`. The model treats such an
  identifier as one directory name, so `Projects.CreateCollision`,
  `Projects.CreateOutcome` and `Views.CreateThenList` describe those names
  only as the model treats them.
- Upload `folder_type` values containing `/` or `..`, or absolute paths:
  the source does not sanitise `folder_type`, so a value such as
  `../b/Notices` or `/tmp` passes the existence check at app.py:82 and the
  file is written outside the project at app.py:87. The model joins the
  value as one name, so it answers such a value with the invalid-folder
  redirect unless a directory of exactly that name is below the project.
- `os.listdir` order and the order of the project page: listings are sets,
  and the page's folder map is an unordered map, although the source fills
  `document_files` in the record's folder order (app.py:94-97) and the page
  shows the folders in that order.
- `UPLOAD_FOLDER` and `secret_key`: declared but not used by the logic.
- Operating-system failures unrelated to the tree's shape: the modelled
  `os.makedirs`, `open` and `os.listdir` fail only because of what is or is
  not at a path. Over-long names (ENAMETOOLONG, for a long project name at
  app.py:28 or a long sanitised file name at app.py:87), names holding a NUL
  character (ValueError), missing permissions and a full disk all raise in
  the source and give a server error; the model never produces them. So
  "never fails" in `Projects.CreateOutcome` and the success of
  `Uploads.UploadAcceptedWritesTarget` hold only when none of these occur.
- Concurrent requests and partly created projects seen by a reader:
  concurrency is not part of this code's logic.
- Ascii.LowerChar: Unicode case mapping is not modelled. Only `A`-`Z` are
  lowered. Python also lowers other letters, some of them to ASCII (KELVIN
  SIGN becomes `k`), so the identifier and extension properties match the
  source only for ASCII names.
- Ascii.Lower: only `A`-`Z` are lowered, for the reason given for
  `Ascii.LowerChar`.
- Projects.DeriveId: identifiers match the source only for ASCII names, for
  the reason given for `Ascii.LowerChar`.
- Extensions.AllowedFile: extensions are lowered only over `A`-`Z`, for the
  reason given for `Ascii.LowerChar`; a non-ASCII extension that Python
  lowers to an allowed one is rejected by the model.

=== FILE: ascii.dfy ===
/** The two string transformations the application applies to user input:
    `str.lower()` and `str.replace(from, to)` with one-character arguments,
    restricted to ASCII case mapping. */
module Ascii {

  predicate IsUpper(c: char) {
    'A' <= c <= 'Z'
  }

  const UpperLetters := "ABCDEFGHIJKLMNOPQRSTUVWXYZ"
  const LowerLetters := "abcdefghijklmnopqrstuvwxyz"

  /** `c.lower()` for an ASCII letter; every other character is kept. */
  function LowerChar(c: char): (r: char)
    ensures !IsUpper(r)
    ensures IsUpper(c) ==> c == UpperLetters[c as int - 'A' as int] && r == LowerLetters[c as int - 'A' as int]
    ensures !IsUpper(c) ==> r == c
  {
    if IsUpper(c) then
      LetterPairs(c);
      (c as int + 32) as char
    else c
  }

  /** An upper-case letter and the letter 32 code points higher stand at the
      same place in the two alphabets. */
  lemma LetterPairs(c: char)
    requires IsUpper(c)
    ensures c == UpperLetters[c as int - 'A' as int]
    ensures (c as int + 32) as char == LowerLetters[c as int - 'A' as int]
  {
  }

  /** `s.lower()`: every upper-case letter becomes the letter at the same
      place in the lower-case alphabet, and every other character is kept. */
  function Lower(s: string): (r: string)
    ensures |r| == |s|
    ensures forall i :: 0 <= i < |s| ==> !IsUpper(r[i])
    ensures forall i :: 0 <= i < |s| && IsUpper(s[i]) ==> r[i] == LowerLetters[s[i] as int - 'A' as int]
    ensures forall i :: 0 <= i < |s| && !IsUpper(s[i]) ==> r[i] == s[i]
  {
    seq(|s|, i requires 0 <= i < |s| => LowerChar(s[i]))
  }

  /** `s.replace(from, to)` for single characters: each occurrence of `from`
      becomes `to`, every other character is kept in place. */
  function Replace(s: string, from: char, to: char): (r: string)
    ensures |r| == |s|
    ensures forall i :: 0 <= i < |s| && s[i] == from ==> r[i] == to
    ensures forall i :: 0 <= i < |s| && s[i] != from ==> r[i] == s[i]
    ensures from != to ==> from !in r
  {
    seq(|s|, i requires 0 <= i < |s| => if s[i] == from then to else s[i])
  }
}

=== FILE: extensions.dfy ===
/** The upload allow-list: `ALLOWED_EXTENSIONS` and `allowed_file`. */
module Extensions {
  import opened Wrappers
  import Ascii

  /** The eleven accepted extensions, all lower-case. */
  const AllowedExtensions: set<string> :=
    {"pdf", "docx", "jpg", "jpeg", "png", "xlsx", "xls", "dwg", "dxf", "kml", "kmz"}

  /** Index of the last occurrence of `c` in `s`, if any. */
  function LastIndexOf(s: string, c: char): (r: Option<nat>)
    ensures r.None? <==> c !in s
    ensures r.Some? ==> r.value < |s| && s[r.value] == c
    ensures r.Some? ==> forall j :: r.value < j < |s| ==> s[j] != c
  {
    if s == [] then None
    else if s[|s| - 1] == c then Some(|s| - 1)
    else
      var r := LastIndexOf(s[..|s| - 1], c);
      assert forall j :: 0 <= j < |s| - 1 ==> s[..|s| - 1][j] == s[j];
      r
  }

  /** `s.rsplit(sep, 1)`: the whole string when `sep` is absent, otherwise the
      parts before and after its last occurrence. */
  function RSplitOnce(s: string, sep: char): (parts: seq<string>)
    ensures sep !in s ==> parts == [s]
    ensures sep in s ==> |parts| == 2 && parts[0] + [sep] + parts[1] == s && sep !in parts[1]
  {
    match LastIndexOf(s, sep)
    case None => [s]
    case Some(i) =>
      assert s[..i] + [sep] + s[i + 1..] == s;
      [s[..i], s[i + 1..]]
  }

  /** `allowed_file(filename)`. */
  predicate AllowedFile(filename: string) {
    '.' in filename && Ascii.Lower(RSplitOnce(filename, '.')[1]) in AllowedExtensions
  }

  /** The name has a dot at position `i` and no dot after it. */
  predicate IsLastDot(filename: string, i: int) {
    0 <= i < |filename| && filename[i] == '.'
    && forall j :: i < j < |filename| ==> filename[j] != '.'
  }

  /** A name is accepted exactly when it has a dot and the text after the
      last dot, lower-cased, is one of the allowed extensions. */
  lemma AllowedFileIff(filename: string)
    ensures AllowedFile(filename) <==>
      exists i :: IsLastDot(filename, i)
        && Ascii.Lower(filename[i + 1..]) in AllowedExtensions
  {
    if '.' in filename {
      var k := LastIndexOf(filename, '.').value;
      assert IsLastDot(filename, k);
      assert RSplitOnce(filename, '.')[1] == filename[k + 1..];
      forall i | IsLastDot(filename, i)
        ensures i == k
      {
      }
    } else {
      forall i | 0 <= i < |filename|
        ensures filename[i] != '.'
      {
        assert filename[i] in filename;
      }
    }
  }

  /** Only the final dot-segment counts, and its case is ignored. */
  lemma UpperCaseExtensionAccepted()
    ensures AllowedFile("A.PDF")
  {
    var s := "A.PDF";
    assert s[1] == '.';
    var k := LastIndexOf(s, '.').value;
    assert k == 1;
    assert RSplitOnce(s, '.')[1] == "PDF";
    assert Ascii.Lower("PDF") == "pdf";
  }

  lemma InnerExtensionIgnored()
    ensures !AllowedFile("x.pdf.exe")
  {
    var s := "x.pdf.exe";
    assert s[5] == '.';
    var k := LastIndexOf(s, '.').value;
    assert k == 5;
    assert RSplitOnce(s, '.')[1] == "exe";
    assert Ascii.Lower("exe") == "exe";
  }

  lemma ExecutableRejected()
    ensures !AllowedFile("malware.exe")
  {
    var s := "malware.exe";
    assert s[7] == '.';
    var k := LastIndexOf(s, '.').value;
    assert k == 7;
    assert RSplitOnce(s, '.')[1] == "exe";
    assert Ascii.Lower("exe") == "exe";
  }

  lemma PlainPdfAccepted()
    ensures AllowedFile("plan.pdf")
  {
    var s := "plan.pdf";
    assert s[4] == '.';
    var k := LastIndexOf(s, '.').value;
    assert k == 4;
    assert RSplitOnce(s, '.')[1] == "pdf";
    assert Ascii.Lower("pdf") == "pdf";
  }

  lemma NameWithoutDotRejected()
    ensures !AllowedFile("pdf")
  {
    assert "pdf"[0] != '.' && "pdf"[1] != '.' && "pdf"[2] != '.';
  }

  /** A bare extension is a whole name: `.pdf` is accepted. */
  lemma BareExtensionAccepted()
    ensures AllowedFile(".pdf")
  {
    var s := ".pdf";
    assert s[0] == '.';
    var k := LastIndexOf(s, '.').value;
    assert k == 0;
    assert RSplitOnce(s, '.')[1] == "pdf";
    assert Ascii.Lower("pdf") == "pdf";
  }
}

=== FILE: filesystem.dfy ===
/** The storage tree below `BASE_DIR`, as an immutable value, and the three
    operating-system calls the application makes on it: `os.makedirs`,
    opening a file for writing, and `os.listdir`. */
module FileSystem {
  import opened Wrappers

  newtype byte = x: int | 0 <= x < 256

  /** The record `create_project` writes to `project_info.json`. */
  datatype ProjectInfo = ProjectInfo(projectId: string, projectName: string, documentFolders: seq<string>)

  /** What a regular file holds: uploaded bytes, or the metadata record. */
  datatype Content = Bytes(data: seq<byte>) | Json(info: ProjectInfo)

  datatype Node = Dir | File(content: Content)

  /** Path components below `BASE_DIR`; `[]` is `BASE_DIR` itself. */
  type Path = seq<string>

  /** The storage tree: every existing path with what is there. */
  type Tree = map<Path, Node>

  /** `os.path.join(p, c)`: an empty component adds nothing. */
  function Join(p: Path, c: string): (r: Path)
    ensures c == "" ==> r == p
    ensures c != "" ==> |r| == |p| + 1 && r[..|p|] == p && r[|p|] == c
  {
    if c == "" then p else p + [c]
  }

  function Parent(p: Path): Path
    requires p != []
  {
    p[..|p| - 1]
  }

  /** A tree: the root, if present, is a directory, and every other entry
      hangs below an existing directory. */
  ghost predicate WellFormed(fs: Tree) {
    && ([] in fs ==> fs[[]] == Dir)
    && forall q, c :: q + [c] in fs ==> q in fs && fs[q] == Dir
  }

  /** Every path below the root is its parent extended by one name. */
  lemma ParentSplit(p: Path)
    requires p != []
    ensures p == Parent(p) + [p[|p| - 1]]
  {
  }

  /** `os.listdir(p)`: the names of the entries directly below `p`. */
  function Children(fs: Tree, p: Path): (names: set<string>)
    ensures forall c :: c in names <==> p + [c] in fs
  {
    var names := set q | q in fs && |q| == |p| + 1 && q[..|p|] == p :: q[|p|];
    assert forall c :: p + [c] in fs ==> (p + [c])[|p|] in names;
    assert forall q :: |q| == |p| + 1 && q[..|p|] == p ==> q == p + [q[|p|]];
    names
  }

  /** Every existing proper ancestor of `p` is a directory. */
  predicate NoFileAbove(fs: Tree, p: Path) {
    forall k :: 0 <= k < |p| && p[..k] in fs ==> fs[p[..k]] == Dir
  }

  /** `os.makedirs(p)` (with `exist_ok=False`): `None` when the call raises,
      which it does when `p` already exists or some ancestor is a file. */
  function MakeDirs(fs: Tree, p: Path): (r: Option<Tree>)
    decreases |p|
    ensures r.Some? ==> p in r.value && r.value[p] == Dir
    ensures r.Some? ==> forall q :: q in fs ==> q in r.value && r.value[q] == fs[q]
    ensures r.Some? ==> forall q :: q in r.value && q !in fs ==> |q| <= |p| && q == p[..|q|] && r.value[q] == Dir
  {
    if p in fs then None
    else if p == [] then Some(fs[[] := Dir])
    else
      var parent := Parent(p);
      var base := if parent in fs then Some(fs) else MakeDirs(fs, parent);
      if base.None? || base.value[parent] != Dir then None
      else Some(base.value[p := Dir])
  }

  /** `open(p, "w")` followed by a write of `content`: `None` when
      the open raises, because `p` is a directory or its parent is not one.
      `BASE_DIR` itself is never opened as a file. */
  function WriteFile(fs: Tree, p: Path, content: Content): (r: Option<Tree>)
    ensures r.Some? <==> p != [] && !(p in fs && fs[p] == Dir) && Parent(p) in fs && fs[Parent(p)] == Dir
    ensures r.Some? ==> r.value == fs[p := File(content)]
    ensures WellFormed(fs) && r.Some? ==> WellFormed(r.value)
  {
    if p == [] || (p in fs && fs[p] == Dir) then None
    else if Parent(p) !in fs || fs[Parent(p)] != Dir then None
    else Some(fs[p := File(content)])
  }

  /** In a tree, `os.makedirs(p)` succeeds exactly when `p` is absent and no
      ancestor of it is a file, and it leaves a tree behind. */
  lemma {:induction false} MakeDirsInTree(fs: Tree, p: Path)
    requires WellFormed(fs)
    ensures MakeDirs(fs, p).Some? <==> p !in fs && NoFileAbove(fs, p)
    ensures MakeDirs(fs, p).Some? ==> WellFormed(MakeDirs(fs, p).value)
    decreases |p|
  {
    if p in fs || p == [] {
    } else if Parent(p) !in fs {
      MakeDirsInTree(fs, Parent(p));
      NoFileAboveStep(fs, p);
    } else {
      NoFileAboveStep(fs, p);
      if fs[Parent(p)] == Dir {
        NoFileBelowDir(fs, Parent(p));
      }
    }
  }

  /** The ancestors of `p` are those of its parent, and the parent. */
  lemma NoFileAboveStep(fs: Tree, p: Path)
    requires p != []
    ensures NoFileAbove(fs, p) <==>
      NoFileAbove(fs, Parent(p)) && (Parent(p) in fs ==> fs[Parent(p)] == Dir)
  {
    var parent := Parent(p);
    assert forall k :: 0 <= k < |parent| ==> p[..k] == parent[..k];
    assert p[..|parent|] == parent;
  }

  /** In a tree, no ancestor of an existing directory is a file. */
  lemma NoFileBelowDir(fs: Tree, p: Path)
    requires WellFormed(fs)
    requires p in fs
    ensures NoFileAbove(fs, p)
  {
    forall k | 0 <= k < |p| && p[..k] in fs
      ensures fs[p[..k]] == Dir
    {
      AncestorIsDir(fs, p, k);
    }
  }

  /** In a tree, every proper ancestor of an existing entry is a directory. */
  lemma {:induction false} AncestorIsDir(fs: Tree, p: Path, k: nat)
    requires WellFormed(fs)
    requires p in fs && k < |p|
    ensures p[..k] in fs && fs[p[..k]] == Dir
    decreases |p|
  {
    ParentSplit(p);
    if k < |p| - 1 {
      assert Parent(p)[..k] == p[..k];
      AncestorIsDir(fs, Parent(p), k);
    }
  }

  /** In a tree, nothing lies below a path that is absent. */
  lemma {:induction false} AbsentHasNoDescendants(fs: Tree, p: Path, q: Path)
    requires WellFormed(fs)
    requires p !in fs && |p| <= |q| && q[..|p|] == p
    ensures q !in fs
  {
    if |p| < |q| && q in fs {
      AncestorIsDir(fs, q, |p|);
    } else {
      assert q[..|q|] == q;
    }
  }
}

=== FILE: projects.dfy ===
/** Project creation: the identifier derived from a display name, the fixed
    folder layout, and `create_project` as a step on the storage tree. */
module Projects {
  import opened Wrappers
  import opened FileSystem
  import Ascii

  /** The sixteen document categories every project is created with, in order. */
  const Subfolders: seq<string> := [
    "Planning_Documents", "Estimate_Documents", "Notices", "Technical_Evaluation", "Financial_Evaluation",
    "Contract_Documents", "Bank_Guarantees", "Insurance_Documents", "Lab_Test_Documents",
    "Running_Bills", "Final_Bill", "WCR", "Date_Extension", "Drawing_Files", "Other_Details", "Letters"]

  const InfoFile: string := "project_info.json"

  /** The project identifier: spaces become underscores, then the name is
      lower-cased. */
  function DeriveId(name: string): (id: string)
    ensures |id| == |name|
  {
    Ascii.Lower(Ascii.Replace(name, ' ', '_'))
  }

  /** The shape of every derived identifier: no space, no upper-case letter. */
  predicate IsNormalId(id: string) {
    forall i :: 0 <= i < |id| ==> id[i] != ' ' && !Ascii.IsUpper(id[i])
  }

  /** Derived identifiers are normal, keep the name's length, and deriving
      again changes nothing. */
  lemma DeriveIdNormal(name: string)
    ensures IsNormalId(DeriveId(name))
    ensures |DeriveId(name)| == |name|
    ensures DeriveId(DeriveId(name)) == DeriveId(name)
  {
    var id := DeriveId(name);
    assert forall i :: 0 <= i < |id| ==> DeriveId(id)[i] == id[i];
  }

  /** Character by character: a space becomes an underscore, an upper-case
      letter becomes its lower-case letter, and every other character is
      kept. */
  lemma DeriveIdChars(name: string)
    ensures forall i :: 0 <= i < |name| && name[i] == ' ' ==> DeriveId(name)[i] == '_'
    ensures forall i :: 0 <= i < |name| && Ascii.IsUpper(name[i]) ==>
      DeriveId(name)[i] == Ascii.LowerLetters[name[i] as int - 'A' as int]
    ensures forall i :: 0 <= i < |name| && name[i] != ' ' && !Ascii.IsUpper(name[i]) ==>
      DeriveId(name)[i] == name[i]
  {
  }

  /** The identifiers are exactly the strings that deriving leaves alone. */
  lemma DeriveIdFixedPoints(s: string)
    ensures DeriveId(s) == s <==> IsNormalId(s)
  {
    DeriveIdNormal(s);
    if IsNormalId(s) {
      assert forall i :: 0 <= i < |s| ==> DeriveId(s)[i] == s[i];
    }
  }

  /** `os.path.join(BASE_DIR, project_id)`. */
  function ProjectPath(id: string): Path {
    Join([], id)
  }

  /** The `for folder in subfolders: os.makedirs(...)` loop: one `makedirs`
      per folder, in order, stopping at the first that raises. */
  function MakeSubfolders(fs: Tree, p: Path, folders: seq<string>): Option<Tree>
    decreases |folders|
  {
    if folders == [] then Some(fs)
    else
      var next :- MakeDirs(fs, Join(p, folders[0]));
      MakeSubfolders(next, p, folders[1..])
  }

  /** `create_project(project_name)`; `None` when an operating-system call
      raises. */
  function CreateProject(fs: Tree, name: string): Option<Tree> {
    var id := DeriveId(name);
    var p := ProjectPath(id);
    if p in fs then Some(fs)
    else
      var withProject :- MakeDirs(fs, p);
      var withFolders :- MakeSubfolders(withProject, p, Subfolders);
      WriteFile(withFolders, Join(p, InfoFile), Json(ProjectInfo(id, name, Subfolders)))
  }

  /** The paths of the category folders of the project at `p`. */
  function FolderPaths(p: Path, folders: seq<string>): set<Path> {
    set c | c in folders :: p + [c]
  }

  /** The record `create_project` stores for `name`. */
  function InfoFor(name: string): ProjectInfo {
    ProjectInfo(DeriveId(name), name, Subfolders)
  }

  lemma SubfoldersDistinct()
    ensures forall i, j :: 0 <= i < j < |Subfolders| ==> Subfolders[i] != Subfolders[j]
    ensures forall i :: 0 <= i < |Subfolders| ==> Subfolders[i] != ""
    ensures InfoFile !in Subfolders
    ensures "" !in Subfolders
  {
  }

  /** `os.makedirs` of a fresh entry directly below an existing directory
      adds just that entry. */
  lemma MakeDirsBelowDir(fs: Tree, p: Path, c: string)
    requires WellFormed(fs) && p in fs && fs[p] == Dir
    requires c != "" && p + [c] !in fs
    ensures MakeDirs(fs, Join(p, c)) == Some(fs[p + [c] := Dir])
    ensures WellFormed(fs[p + [c] := Dir])
  {
    assert Parent(p + [c]) == p;
  }

  /** `after` is `before` with the directories `p/c`, for `c` in `folders`,
      added and nothing else changed. */
  predicate AddsFolders(before: Tree, after: Tree, p: Path, folders: seq<string>) {
    && after.Keys == before.Keys + FolderPaths(p, folders)
    && (forall q :: q in before ==> after[q] == before[q])
    && (forall c :: c in folders ==> p + [c] in after && after[p + [c]] == Dir)
  }

  lemma AddsFoldersStep(fs: Tree, r: Tree, p: Path, folders: seq<string>)
    requires folders != [] && folders[0] != "" && p + [folders[0]] !in fs
    requires AddsFolders(fs[p + [folders[0]] := Dir], r, p, folders[1..])
    ensures AddsFolders(fs, r, p, folders)
  {
    var c := folders[0];
    var rest := folders[1..];
    assert forall c' :: c' in folders <==> c' == c || c' in rest;
    assert FolderPaths(p, folders) == {p + [c]} + FolderPaths(p, rest);
  }

  /** Creating fresh, distinct, non-empty folders below an existing directory
      adds exactly those folders and keeps the tree well formed. */
  lemma {:induction false} MakeSubfoldersFresh(fs: Tree, p: Path, folders: seq<string>)
    requires WellFormed(fs) && p in fs && fs[p] == Dir
    requires forall i :: 0 <= i < |folders| ==> folders[i] != "" && p + [folders[i]] !in fs
    requires forall i, j :: 0 <= i < j < |folders| ==> folders[i] != folders[j]
    ensures MakeSubfolders(fs, p, folders).Some?
    ensures WellFormed(MakeSubfolders(fs, p, folders).value)
    ensures AddsFolders(fs, MakeSubfolders(fs, p, folders).value, p, folders)
    decreases |folders|
  {
    if folders == [] {
      assert FolderPaths(p, folders) == {};
    } else {
      var c := folders[0];
      var rest := folders[1..];
      MakeDirsBelowDir(fs, p, c);
      var next := fs[p + [c] := Dir];
      assert MakeSubfolders(fs, p, folders) == MakeSubfolders(next, p, rest);
      assert forall i :: 0 <= i < |rest| ==> p + [rest[i]] !in next by {
        forall i | 0 <= i < |rest| ensures p + [rest[i]] !in next {
          assert rest[i] == folders[i + 1] != c;
          assert (p + [rest[i]])[|p|] != (p + [c])[|p|];
        }
      }
      assert forall i, j :: 0 <= i < j < |rest| ==> rest[i] != rest[j] by {
        forall i, j | 0 <= i < j < |rest| ensures rest[i] != rest[j] {
          assert rest[i] == folders[i + 1] && rest[j] == folders[j + 1];
        }
      }
      MakeSubfoldersFresh(next, p, rest);
      AddsFoldersStep(fs, MakeSubfolders(next, p, rest).value, p, folders);
    }
  }

  /** `after` is `before` with project `name` laid out: `BASE_DIR` (if it was
      missing), the project directory, the sixteen category folders and the
      metadata record, with every entry of `before` kept as it was. */
  predicate CreatedFrom(before: Tree, after: Tree, name: string) {
    var p := ProjectPath(DeriveId(name));
    && after.Keys == before.Keys + {[], p, p + [InfoFile]} + FolderPaths(p, Subfolders)
    && (forall q :: q in before ==> after[q] == before[q])
    && after[[]] == Dir && after[p] == Dir
    && (forall c :: c in Subfolders ==> p + [c] in after && after[p + [c]] == Dir)
    && after[p + [InfoFile]] == File(Json(InfoFor(name)))
  }

  /** In a tree, `create_project` never raises; when the project directory
      exists it changes nothing, and otherwise it lays out exactly the new
      project and leaves a tree. */
  lemma CreateOutcome(fs: Tree, name: string)
    requires WellFormed(fs)
    ensures CreateProject(fs, name).Some?
    ensures WellFormed(CreateProject(fs, name).value)
    ensures ProjectPath(DeriveId(name)) in fs ==> CreateProject(fs, name) == Some(fs)
    ensures ProjectPath(DeriveId(name)) !in fs ==> CreatedFrom(fs, CreateProject(fs, name).value, name)
  {
    if ProjectPath(DeriveId(name)) !in fs {
      CreateFresh(fs, name);
    }
  }

  /** A regular file where `BASE_DIR` should be: making a project directory
      below it raises, so creation fails. */
  lemma CreateBelowFileFails(fs: Tree, name: string)
    requires [] in fs && fs[[]].File?
    ensures ProjectPath(DeriveId(name)) !in fs ==> CreateProject(fs, name) == None
  {
  }

  lemma CreateFresh(fs: Tree, name: string)
    requires WellFormed(fs)
    requires ProjectPath(DeriveId(name)) !in fs
    ensures CreateProject(fs, name).Some?
    ensures WellFormed(CreateProject(fs, name).value)
    ensures CreatedFrom(fs, CreateProject(fs, name).value, name)
  {
    var p := ProjectPath(DeriveId(name));
    ProjectDirFresh(fs, p);
    var withProject := MakeDirs(fs, p).value;
    SubfoldersDistinct();
    MakeSubfoldersFresh(withProject, p, Subfolders);
    var withFolders := MakeSubfolders(withProject, p, Subfolders).value;
    InfoFileFresh(fs, withProject, withFolders, name);
  }

  /** The `os.makedirs(project_path)` step of a fresh project. */
  lemma ProjectDirFresh(fs: Tree, p: Path)
    requires WellFormed(fs) && p !in fs && |p| <= 1
    ensures MakeDirs(fs, p).Some?
    ensures var r := MakeDirs(fs, p).value;
      && WellFormed(r)
      && r.Keys == fs.Keys + {[], p}
      && (forall q :: q in fs ==> r[q] == fs[q])
      && r[[]] == Dir && r[p] == Dir
      && (forall c :: p + [c] !in r)
  {
    assert NoFileAbove(fs, p) by {
      if |p| == 1 { assert p[..0] == []; }
    }
    MakeDirsInTree(fs, p);
    var r := MakeDirs(fs, p).value;
    assert [] in r by {
      if p != [] { assert Parent(p) == []; }
    }
    assert r.Keys == fs.Keys + {[], p} by {
      forall q | q in r && q !in fs ensures q == [] || q == p {
        assert |q| <= |p| && q == p[..|q|];
        if |q| == |p| { assert p[..|p|] == p; }
      }
    }
    forall c ensures p + [c] !in r {
      AbsentHasNoDescendants(fs, p, p + [c]);
    }
  }

  /** The metadata write of a fresh project, and the layout it completes. */
  lemma InfoFileFresh(fs: Tree, withProject: Tree, withFolders: Tree, name: string)
    requires WellFormed(fs)
    requires ProjectPath(DeriveId(name)) !in fs
    requires MakeDirs(fs, ProjectPath(DeriveId(name))) == Some(withProject)
    requires var p := ProjectPath(DeriveId(name));
      && withProject.Keys == fs.Keys + {[], p}
      && (forall q :: q in fs ==> withProject[q] == fs[q])
      && withProject[[]] == Dir && withProject[p] == Dir
      && (forall c :: p + [c] !in withProject)
    requires MakeSubfolders(withProject, ProjectPath(DeriveId(name)), Subfolders) == Some(withFolders)
    requires WellFormed(withFolders)
    requires AddsFolders(withProject, withFolders, ProjectPath(DeriveId(name)), Subfolders)
    ensures CreateProject(fs, name).Some?
    ensures WellFormed(CreateProject(fs, name).value)
    ensures CreatedFrom(fs, CreateProject(fs, name).value, name)
  {
    var p := ProjectPath(DeriveId(name));
    var infoPath := Join(p, InfoFile);
    assert infoPath == p + [InfoFile] && Parent(infoPath) == p;
    SubfoldersDistinct();
    assert infoPath !in withFolders by {
      assert infoPath !in FolderPaths(p, Subfolders);
    }
    var r := withFolders[infoPath := File(Json(InfoFor(name)))];
    CreateUnfold(fs, withProject, withFolders, name);
    assert WriteFile(withFolders, infoPath, Json(InfoFor(name))) == Some(r);
    LayoutComplete(fs, withProject, withFolders, r, name);
  }

  /** `create_project` on a fresh path is makedirs, the folder loop, then the
      metadata write. */
  lemma CreateUnfold(fs: Tree, withProject: Tree, withFolders: Tree, name: string)
    requires ProjectPath(DeriveId(name)) !in fs
    requires MakeDirs(fs, ProjectPath(DeriveId(name))) == Some(withProject)
    requires MakeSubfolders(withProject, ProjectPath(DeriveId(name)), Subfolders) == Some(withFolders)
    ensures CreateProject(fs, name)
      == WriteFile(withFolders, Join(ProjectPath(DeriveId(name)), InfoFile), Json(InfoFor(name)))
  {
  }

  lemma LayoutComplete(fs: Tree, withProject: Tree, withFolders: Tree, r: Tree, name: string)
    requires var p := ProjectPath(DeriveId(name));
      && withProject.Keys == fs.Keys + {[], p}
      && (forall q :: q in fs ==> withProject[q] == fs[q])
      && withProject[[]] == Dir && withProject[p] == Dir
      && p + [InfoFile] !in withFolders
      && AddsFolders(withProject, withFolders, p, Subfolders)
      && r == withFolders[p + [InfoFile] := File(Json(InfoFor(name)))]
    ensures CreatedFrom(fs, r, name)
  {
  }

  /** Creating a project whose identifier is already taken, by the same name
      or by another that normalises to it, is a silent no-op: the second
      call leaves the result of the first unchanged. */
  lemma CreateCollision(fs: Tree, first: string, second: string)
    requires WellFormed(fs)
    requires DeriveId(first) == DeriveId(second)
    ensures CreateProject(fs, first).Some?
    ensures CreateProject(CreateProject(fs, first).value, second) == CreateProject(fs, first)
  {
    CreateOutcome(fs, first);
  }

  /** Calling `create_project` twice equals calling it once. */
  lemma CreateIdempotent(fs: Tree, name: string)
    requires WellFormed(fs)
    ensures CreateProject(fs, name).Some?
    ensures CreateProject(CreateProject(fs, name).value, name) == CreateProject(fs, name)
  {
    CreateCollision(fs, name, name);
  }
}

=== FILE: scenarios.dfy ===
/** The worked example of a project named "Road Widening Phase 1". */
module Scenarios {
  import Projects

  /** The identifier of the display name "Road Widening Phase 1". */
  lemma RoadWideningId()
    ensures Projects.DeriveId("Road Widening Phase 1") == "road_widening_phase_1"
  {
  }
}

=== FILE: uploads.dfy ===
/** The POST branch of `show_project`: an ordered chain of rejections
    followed by one write into a folder of the project. */
module Uploads {
  import opened Wrappers
  import opened FileSystem
  import Extensions
  import Projects
  import Views

  /** The multipart `file` part as received. */
  datatype FilePart = FilePart(filename: string, data: seq<byte>)

  /** The parts of the POST the handler reads: `request.files['file']` and
      `request.form['folder_type']`, each possibly absent. */
  datatype UploadForm = UploadForm(file: Option<FilePart>, folderType: Option<string>)

  /** The storage tree after the request, and the response sent. */
  datatype Step = Step(fs: Tree, response: Views.Response)

  /** Where an accepted upload is written: the sanitised name inside the
      selected folder of the project. */
  function UploadTarget(projectId: string, folderType: string, filename: string, secureFilename: string -> string): Path {
    Join(Join(Projects.ProjectPath(projectId), folderType), secureFilename(filename))
  }

  /** `show_project` on POST. `secureFilename` stands for Werkzeug's
      `secure_filename`, whose behaviour is not modelled. A name whose
      extension is not allowed falls through to the GET view. */
  function Upload(fs: Tree, projectId: string, form: UploadForm, secureFilename: string -> string): Step {
    var page := Views.ProjectPage(projectId);
    if form.file.None? then Step(fs, Views.Redirect(page, Views.NoFilePart))
    else
      var part := form.file.value;
      if part.filename == "" then Step(fs, Views.Redirect(page, Views.NoSelectedFile))
      else if !Extensions.AllowedFile(part.filename) then Step(fs, Views.ShowProject(fs, projectId))
      else if form.folderType.None? then Step(fs, Views.BadRequest)
      else
        var folderType := form.folderType.value;
        var folderPath := Join(Projects.ProjectPath(projectId), folderType);
        if folderPath !in fs then Step(fs, Views.Redirect(page, Views.InvalidFolderType))
        else
          var filename := secureFilename(part.filename);
          // Joining an empty name leaves a trailing separator, and opening
          // such a path for writing raises.
          if filename == "" then Step(fs, Views.ServerError)
          else match WriteFile(fs, Join(folderPath, filename), Bytes(part.data))
          case None => Step(fs, Views.ServerError)
          case Some(written) => Step(written, Views.Redirect(page, Views.FileUploaded(filename, folderType)))
  }

  /** Every check of the handler passes, and the save does not raise: a
      named file with an allowed extension, a selected folder that exists as
      a directory, and a non-empty sanitised name that is not a directory
      there. Membership of the folder among the
      sixteen categories is not among them. */
  ghost predicate Accepted(fs: Tree, projectId: string, form: UploadForm, secureFilename: string -> string) {
    && form.file.Some? && form.file.value.filename != ""
    && Extensions.AllowedFile(form.file.value.filename)
    && form.folderType.Some?
    && var folderPath := Join(Projects.ProjectPath(projectId), form.folderType.value);
       var target := UploadTarget(projectId, form.folderType.value, form.file.value.filename, secureFilename);
       && folderPath in fs && fs[folderPath] == Dir
       && secureFilename(form.file.value.filename) != ""
       && !(target in fs && fs[target] == Dir)
  }

  /** The response is the upload-success redirect. */
  predicate ReportsUpload(response: Views.Response) {
    response.Redirect? && response.notice.FileUploaded?
  }

  /** The rejections come in the handler's order, the first failing check
      decides the response, and none of them writes anything. */
  lemma UploadRejectionOrder(fs: Tree, projectId: string, form: UploadForm, secureFilename: string -> string)
    ensures var r := Upload(fs, projectId, form, secureFilename);
      var page := Views.ProjectPage(projectId);
      && (form.file.None? ==>
            r == Step(fs, Views.Redirect(page, Views.NoFilePart)))
      && (form.file.Some? && form.file.value.filename == "" ==>
            r == Step(fs, Views.Redirect(page, Views.NoSelectedFile)))
      && (form.file.Some? && form.file.value.filename != ""
          && !Extensions.AllowedFile(form.file.value.filename) ==>
            r == Step(fs, Views.ShowProject(fs, projectId)))
      && (form.file.Some? && form.file.value.filename != ""
          && Extensions.AllowedFile(form.file.value.filename) && form.folderType.None? ==>
            r == Step(fs, Views.BadRequest))
      && (form.file.Some? && form.file.value.filename != ""
          && Extensions.AllowedFile(form.file.value.filename) && form.folderType.Some?
          && Join(Projects.ProjectPath(projectId), form.folderType.value) !in fs ==>
            r == Step(fs, Views.Redirect(page, Views.InvalidFolderType)))
  {
  }

  /** An upload that is not accepted writes nothing and does not report
      success. */
  lemma UploadRejectedWritesNothing(fs: Tree, projectId: string, form: UploadForm, secureFilename: string -> string)
    requires !Accepted(fs, projectId, form, secureFilename)
    ensures Upload(fs, projectId, form, secureFilename).fs == fs
    ensures !ReportsUpload(Upload(fs, projectId, form, secureFilename).response)
  {
  }

  /** An accepted upload sets the one target entry to the uploaded bytes,
      overwriting a file of that name if there is one; every other entry is
      unchanged, and the tree stays well formed. */
  lemma UploadAcceptedWritesTarget(fs: Tree, projectId: string, form: UploadForm, secureFilename: string -> string)
    requires WellFormed(fs)
    requires Accepted(fs, projectId, form, secureFilename)
    ensures var r := Upload(fs, projectId, form, secureFilename);
      var part := form.file.value;
      var target := UploadTarget(projectId, form.folderType.value, part.filename, secureFilename);
      && r.fs == fs[target := File(Bytes(part.data))]
      && r.response == Views.Redirect(Views.ProjectPage(projectId),
           Views.FileUploaded(secureFilename(part.filename), form.folderType.value))
      && WellFormed(r.fs)
  {
    var folderPath := Join(Projects.ProjectPath(projectId), form.folderType.value);
    var name := secureFilename(form.file.value.filename);
    var target := Join(folderPath, name);
    assert target == folderPath + [name] && Parent(target) == folderPath;
  }

  /** What an accepted upload wrote is what a download of the same folder
      and sanitised name sends back. */
  lemma UploadThenDownload(fs: Tree, projectId: string, form: UploadForm, secureFilename: string -> string)
    requires WellFormed(fs)
    requires Accepted(fs, projectId, form, secureFilename)
    ensures var r := Upload(fs, projectId, form, secureFilename);
      Views.DownloadDocument(r.fs, projectId, form.folderType.value, secureFilename(form.file.value.filename))
        == Views.Attachment(Bytes(form.file.value.data))
  {
    UploadAcceptedWritesTarget(fs, projectId, form, secureFilename);
  }

  /** A file with a disallowed extension is not written, whatever the form
      says otherwise; the handler renders the project view instead. */
  lemma ExecutableUploadIgnored(fs: Tree, projectId: string, data: seq<byte>, folderType: Option<string>, secureFilename: string -> string)
    ensures var r := Upload(fs, projectId, UploadForm(Some(FilePart("malware.exe", data)), folderType), secureFilename);
      r.fs == fs && r.response == Views.ShowProject(fs, projectId)
  {
    Extensions.ExecutableRejected();
  }

  /** A project `site` with one extra directory `Misc`, and nothing else. */
  function SampleTree(): Tree {
    map[[] := Dir, ["site"] := Dir, ["site", "Misc"] := Dir]
  }

  lemma SampleTreeWellFormed()
    ensures WellFormed(SampleTree())
  {
    var fs := SampleTree();
    forall q, c | q + [c] in fs ensures q in fs && fs[q] == Dir {
      assert q + [c] == ["site"] || q + [c] == ["site", "Misc"];
      var e := q + [c];
      assert q == e[..|e| - 1];
      if e == ["site"] {
        assert q == [];
      } else {
        assert e[..1] == ["site"];
      }
    }
  }

  lemma MiscNotCategory()
    ensures "Misc" !in Projects.Subfolders
  {
  }

  /** The form of the uncategorised-folder example: `plan.pdf` into `Misc`. */
  function MiscForm(): UploadForm {
    UploadForm(Some(FilePart("plan.pdf", [1])), Some("Misc"))
  }

  lemma MiscFormAccepted()
    ensures Accepted(SampleTree(), "site", MiscForm(), s => s)
    ensures UploadTarget("site", "Misc", "plan.pdf", s => s) == ["site", "Misc", "plan.pdf"]
  {
    Extensions.PlainPdfAccepted();
    assert Projects.ProjectPath("site") == ["site"];
    assert Join(["site"], "Misc") == ["site", "Misc"];
    assert Join(["site", "Misc"], "plan.pdf") == ["site", "Misc", "plan.pdf"];
  }

  /** The folder check is existence of the joined path: an extra directory
      that is not one of the sixteen categories accepts uploads too. */
  lemma UploadIntoUncategorisedFolder()
    ensures "Misc" !in Projects.Subfolders
    ensures Upload(SampleTree(), "site", MiscForm(), s => s).fs
        == SampleTree()[["site", "Misc", "plan.pdf"] := File(Bytes([1]))]
  {
    MiscNotCategory();
    SampleTreeWellFormed();
    MiscFormAccepted();
    UploadAcceptedWritesTarget(SampleTree(), "site", MiscForm(), s => s);
  }
}

=== FILE: views.dfy ===
/** The read-only routes: the project listing, the project page, and the two
    downloads, each as a query on the storage tree that yields the response
    the route sends. */
module Views {
  import opened Wrappers
  import opened FileSystem
  import Projects

  /** The pages a redirect can lead to. */
  datatype Page = Home | Listing | ProjectPage(projectId: string)

  /** The flashed messages. */
  datatype Notice =
    | NoFilePart
    | NoSelectedFile
    | InvalidFolderType
    | FileUploaded(filename: string, folderType: string)
    | BaseDirMissing
    | ProjectNotFound
    | DocumentNotFound
    | ProjectDataNotFound

  datatype Response =
    | Redirect(to: Page, notice: Notice)
    | ProjectListing(projects: set<string>)
    | ProjectDetails(info: ProjectInfo, projectId: string, documentFiles: map<string, set<string>>)
    | Attachment(content: Content)
    /** A form field the handler indexes is missing (HTTP 400). */
    | BadRequest
    /** The handler raised an uncaught exception (HTTP 500). */
    | ServerError

  /** `os.path.join(BASE_DIR, project_id, "project_info.json")`. */
  function InfoPath(projectId: string): Path {
    Join(Projects.ProjectPath(projectId), Projects.InfoFile)
  }

  /** `list_projects`: the entries of `BASE_DIR`, or a redirect home when it
      is missing. */
  function ListProjects(fs: Tree): Response {
    if [] !in fs then Redirect(Home, BaseDirMissing)
    else if fs[[]] != Dir then ServerError
    else ProjectListing(Children(fs, []))
  }

  /** The `document_files` map of the project page: for every declared folder
      that exists, its listing; `None` when a declared folder exists but is
      not a directory, since listing it raises. */
  function DocumentFiles(fs: Tree, p: Path, folders: seq<string>): Option<map<string, set<string>>> {
    if FoldersListable(fs, p, folders) then Some(Listings(fs, p, folders)) else None
  }

  /** No declared folder exists as anything but a directory. */
  predicate FoldersListable(fs: Tree, p: Path, folders: seq<string>) {
    forall f :: f in folders && Join(p, f) in fs ==> fs[Join(p, f)] == Dir
  }

  lemma FoldersListableStep(fs: Tree, p: Path, folders: seq<string>, f: string)
    ensures FoldersListable(fs, p, folders + [f]) <==>
      FoldersListable(fs, p, folders) && (Join(p, f) in fs ==> fs[Join(p, f)] == Dir)
  {
    assert forall g :: g in folders + [f] <==> g in folders || g == f;
  }

  /** Each folder of `folders` that exists below `p`, with its listing. */
  function Listings(fs: Tree, p: Path, folders: seq<string>): map<string, set<string>> {
    map f | f in folders && Join(p, f) in fs :: Children(fs, Join(p, f))
  }

  lemma ListingsStep(fs: Tree, p: Path, folders: seq<string>, f: string)
    ensures Listings(fs, p, folders + [f]) ==
      if Join(p, f) in fs then Listings(fs, p, folders)[f := Children(fs, Join(p, f))]
      else Listings(fs, p, folders)
  {
    assert forall g :: g in folders + [f] <==> g in folders || g == f;
  }

  /** The loop that builds `document_files`, one declared folder at a time in
      the order of the record. */
  method CollectDocumentFiles(fs: Tree, p: Path, folders: seq<string>)
    returns (r: Option<map<string, set<string>>>)
    ensures r == DocumentFiles(fs, p, folders)
  {
    var files: map<string, set<string>> := map[];
    assert folders[..0] == [];
    var i := 0;
    while i < |folders|
      invariant 0 <= i <= |folders|
      invariant FoldersListable(fs, p, folders[..i])
      invariant files == Listings(fs, p, folders[..i])
    {
      var folder := folders[i];
      var path := Join(p, folder);
      assert folders[..i + 1] == folders[..i] + [folder];
      ListingsStep(fs, p, folders[..i], folder);
      FoldersListableStep(fs, p, folders[..i], folder);
      if path in fs {
        if fs[path] != Dir {
          assert folder in folders;
          return None;
        }
        files := files[folder := Children(fs, path)];
      }
      i := i + 1;
    }
    assert folders[..i] == folders;
    return Some(files);
  }

  /** `show_project` on GET: the project page when the project directory and
      its metadata record exist, a redirect to the listing otherwise. */
  function ShowProject(fs: Tree, projectId: string): Response {
    var p := Projects.ProjectPath(projectId);
    var infoPath := InfoPath(projectId);
    if !(p in fs && infoPath in fs) then Redirect(Listing, ProjectNotFound)
    else match fs[infoPath]
      case Dir => ServerError
      case File(Bytes(_)) => ServerError
      case File(Json(info)) =>
        match DocumentFiles(fs, p, info.documentFolders)
        case None => ServerError
        case Some(files) => ProjectDetails(info, projectId, files)
  }

  /** `download_document`: the file at exactly that path, or a redirect to
      the project page. */
  function DownloadDocument(fs: Tree, projectId: string, folderType: string, filename: string): Response {
    var path := Join(Join(Projects.ProjectPath(projectId), folderType), filename);
    if path !in fs then Redirect(ProjectPage(projectId), DocumentNotFound)
    else match fs[path]
      case Dir => ServerError
      case File(content) => Attachment(content)
  }

  /** `download_project`: the metadata file, or a redirect to the listing. */
  function DownloadProject(fs: Tree, projectId: string): Response {
    var path := InfoPath(projectId);
    if path !in fs then Redirect(Listing, ProjectDataNotFound)
    else match fs[path]
      case Dir => ServerError
      case File(content) => Attachment(content)
  }

  /** The project page is shown exactly when the project directory and a
      metadata record exist and every declared folder that exists is a
      directory; its file map then has a key for exactly the declared
      folders that exist, each mapped to that folder's entries. A missing
      directory or record redirects to the listing; anything else raises. */
  lemma ShowProjectOutcome(fs: Tree, projectId: string)
    ensures var p := Projects.ProjectPath(projectId);
      ShowProject(fs, projectId).Redirect? <==> !(p in fs && InfoPath(projectId) in fs)
    ensures ShowProject(fs, projectId).Redirect? ==>
      ShowProject(fs, projectId) == Redirect(Listing, ProjectNotFound)
    ensures var p := Projects.ProjectPath(projectId);
      ShowProject(fs, projectId).ProjectDetails? <==>
        && p in fs && InfoPath(projectId) in fs
        && fs[InfoPath(projectId)].File? && fs[InfoPath(projectId)].content.Json?
        && FoldersListable(fs, p, fs[InfoPath(projectId)].content.info.documentFolders)
    ensures var p := Projects.ProjectPath(projectId);
      var r := ShowProject(fs, projectId);
      r.ProjectDetails? ==>
        && r.info == fs[InfoPath(projectId)].content.info
        && r.projectId == projectId
        && (forall f :: f in r.documentFiles <==>
              f in r.info.documentFolders && Join(p, f) in fs && fs[Join(p, f)] == Dir)
        && (forall f :: f in r.documentFiles ==> r.documentFiles[f] == Children(fs, Join(p, f)))
    ensures var r := ShowProject(fs, projectId);
      r.Redirect? || r.ProjectDetails? || r.ServerError?
  {
  }

  /** A folder just created below a fresh project directory is empty. */
  lemma NewFolderEmpty(fs: Tree, r: Tree, name: string, c: string)
    requires WellFormed(fs)
    requires Projects.ProjectPath(Projects.DeriveId(name)) !in fs
    requires Projects.CreatedFrom(fs, r, name)
    ensures Children(r, Projects.ProjectPath(Projects.DeriveId(name)) + [c]) == {}
  {
    var p := Projects.ProjectPath(Projects.DeriveId(name));
    forall d | p + [c] + [d] in r ensures false {
      var q := p + [c] + [d];
      assert |q| == |p| + 2;
      if q in fs {
        AbsentHasNoDescendants(fs, p, q);
      }
    }
  }

  /** After creating a fresh project, its page shows the stored record and
      the sixteen categories, each with no files. */
  lemma CreateThenShow(fs: Tree, name: string)
    requires WellFormed(fs)
    requires Projects.ProjectPath(Projects.DeriveId(name)) !in fs
    ensures Projects.CreateProject(fs, name).Some?
    ensures ShowProject(Projects.CreateProject(fs, name).value, Projects.DeriveId(name))
      == ProjectDetails(Projects.InfoFor(name), Projects.DeriveId(name), map c | c in Projects.Subfolders :: {})
  {
    Projects.CreateFresh(fs, name);
    var r := Projects.CreateProject(fs, name).value;
    FreshLayoutIsEmpty(fs, r, name);
    ShowLaidOut(r, Projects.DeriveId(name), Projects.InfoFor(name));
  }

  /** A freshly laid out project has its record in place and sixteen empty
      category directories. */
  lemma FreshLayoutIsEmpty(fs: Tree, r: Tree, name: string)
    requires WellFormed(fs)
    requires Projects.ProjectPath(Projects.DeriveId(name)) !in fs
    requires Projects.CreatedFrom(fs, r, name)
    ensures var id := Projects.DeriveId(name);
      var p := Projects.ProjectPath(id);
      && p in r && InfoPath(id) in r && r[InfoPath(id)] == File(Json(Projects.InfoFor(name)))
      && forall c :: c in Projects.Subfolders ==>
           Join(p, c) in r && r[Join(p, c)] == Dir && Children(r, Join(p, c)) == {}
  {
    var p := Projects.ProjectPath(Projects.DeriveId(name));
    assert InfoPath(Projects.DeriveId(name)) == p + [Projects.InfoFile];
    Projects.SubfoldersDistinct();
    forall c | c in Projects.Subfolders
      ensures Join(p, c) in r && r[Join(p, c)] == Dir && Children(r, Join(p, c)) == {}
    {
      assert Join(p, c) == p + [c];
      NewFolderEmpty(fs, r, name, c);
    }
  }

  /** A project whose declared folders all exist and are empty directories
      is shown with an empty listing for each of them. */
  lemma ShowLaidOut(fs: Tree, projectId: string, info: ProjectInfo)
    requires var p := Projects.ProjectPath(projectId);
      && p in fs && InfoPath(projectId) in fs && fs[InfoPath(projectId)] == File(Json(info))
      && forall c :: c in info.documentFolders ==>
           Join(p, c) in fs && fs[Join(p, c)] == Dir && Children(fs, Join(p, c)) == {}
    ensures ShowProject(fs, projectId) == ProjectDetails(info, projectId, map c | c in info.documentFolders :: {})
  {
    var p := Projects.ProjectPath(projectId);
    var folders := info.documentFolders;
    assert !exists f :: f in folders && Join(p, f) in fs && fs[Join(p, f)] != Dir;
    assert Listings(fs, p, folders) == map c | c in folders :: {} by {
      assert forall c :: c in Listings(fs, p, folders) <==> c in folders;
      forall c | c in folders ensures Listings(fs, p, folders)[c] == {} {
        assert Children(fs, Join(p, c)) == {};
      }
    }
  }

  /** The entries of `BASE_DIR` after a fresh project is created: the old
      ones and the new project. */
  lemma RootEntriesAfterCreate(fs: Tree, r: Tree, name: string)
    requires Projects.DeriveId(name) != ""
    requires Projects.CreatedFrom(fs, r, name)
    ensures Children(r, []) == Children(fs, []) + {Projects.DeriveId(name)}
  {
    var id := Projects.DeriveId(name);
    var p := Projects.ProjectPath(id);
    assert p == [id];
    forall c ensures [] + [c] in r <==> [] + [c] in fs || c == id {
      assert [] + [c] == [c];
      assert [c] != [] && [c] != p + [Projects.InfoFile];
      assert [c] !in Projects.FolderPaths(p, Projects.Subfolders);
    }
  }

  /** Creating a project adds its identifier to the listing and nothing
      else; an identifier already present leaves the listing as it was. */
  lemma CreateThenList(fs: Tree, name: string)
    requires WellFormed(fs)
    requires Projects.DeriveId(name) != ""
    ensures Projects.CreateProject(fs, name).Some?
    ensures ListProjects(Projects.CreateProject(fs, name).value)
      == ProjectListing(Children(fs, []) + {Projects.DeriveId(name)})
  {
    var id := Projects.DeriveId(name);
    var p := Projects.ProjectPath(id);
    assert p == [id] && [] + [id] == p;
    Projects.CreateOutcome(fs, name);
    if p in fs {
      assert id in Children(fs, []);
      assert Children(fs, []) + {id} == Children(fs, []);
    } else {
      RootEntriesAfterCreate(fs, Projects.CreateProject(fs, name).value, name);
    }
  }

  /** After creating a fresh project, downloading its data yields the stored
      record: identifier, original name and folder list. */
  lemma CreateThenDownloadProject(fs: Tree, name: string)
    requires WellFormed(fs)
    requires Projects.ProjectPath(Projects.DeriveId(name)) !in fs
    ensures Projects.CreateProject(fs, name).Some?
    ensures DownloadProject(Projects.CreateProject(fs, name).value, Projects.DeriveId(name))
      == Attachment(Json(ProjectInfo(Projects.DeriveId(name), name, Projects.Subfolders)))
  {
    Projects.CreateFresh(fs, name);
    assert InfoPath(Projects.DeriveId(name)) == Projects.ProjectPath(Projects.DeriveId(name)) + [Projects.InfoFile];
  }

  /** A download sends exactly what is stored at the joined path, and a
      missing file is a not-found redirect, never an error. */
  lemma DownloadDocumentOutcome(fs: Tree, projectId: string, folderType: string, filename: string)
    ensures var path := Join(Join(Projects.ProjectPath(projectId), folderType), filename);
      var r := DownloadDocument(fs, projectId, folderType, filename);
      && (r.Attachment? <==> path in fs && fs[path].File?)
      && (r.Attachment? ==> r.content == fs[path].content)
      && (path !in fs <==> r == Redirect(ProjectPage(projectId), DocumentNotFound))
      && (path in fs && fs[path] == Dir <==> r == ServerError)
  {
  }

  /** Downloading the project data sends exactly the file stored as the
      project's record, and a missing record is a not-found redirect to the
      listing, never an error. */
  lemma DownloadProjectOutcome(fs: Tree, projectId: string)
    ensures var path := InfoPath(projectId);
      var r := DownloadProject(fs, projectId);
      && (r.Attachment? <==> path in fs && fs[path].File?)
      && (r.Attachment? ==> r.content == fs[path].content)
      && (path !in fs <==> r == Redirect(Listing, ProjectDataNotFound))
      && (path in fs && fs[path] == Dir <==> r == ServerError)
  {
  }

  /** The listing redirects home exactly when `BASE_DIR` is missing, rather
      than showing an empty list. In a tree it otherwise lists exactly the
      names of the entries directly below `BASE_DIR`, files included. */
  lemma ListProjectsOutcome(fs: Tree)
    ensures ListProjects(fs) == Redirect(Home, BaseDirMissing) <==> [] !in fs
    ensures WellFormed(fs) && [] in fs ==>
      && ListProjects(fs).ProjectListing?
      && forall c :: c in ListProjects(fs).projects <==> [c] in fs
    ensures [] in fs && fs[[]] != Dir ==> ListProjects(fs) == ServerError
  {
    if WellFormed(fs) && [] in fs {
      assert ListProjects(fs) == ProjectListing(Children(fs, []));
      assert forall c: string :: [] + [c] == [c];
    }
  }
}

=== FILE: wrappers.dfy ===
/** Failure-compatible optional values, used for operations that can raise. */
module Wrappers {

  datatype Option<+T> = None | Some(value: T) {

    predicate IsFailure() {
      None?
    }

    function PropagateFailure<U>(): Option<U>
      requires None?
    {
      None
    }

    function Extract(): T
      requires Some?
    {
      value
    }
  }
}
